=== FILE: README.md ===
# fastboot-redis-cache, modelled in Dafny

`RedisCache` (index.js) is a response cache for a FastBoot server. It stores a
rendered page body under a primary key in Redis. For each resource it also
keeps a **key index**: a JSON list of every primary key ever written for that
resource. This project models that class as pure functions over a Redis
database represented as maps. It proves the properties its code and its tests
rely on.

- **Key derivation** (`KeyDeriver`, key_deriver.dfy).
  - The primary key comes from a strategy `(path, request) -> key`. The default strategy returns the path.
  - The index key is `key_index_` followed by the document id. The document id is the digit run that the regular expression `/\/(\d+)/` captures in the path.
  - When the path has no document id, the index key is `key_index_` followed by the whole path.
  - The regular expression is modelled as a scan over the characters of the path. Its result is proved equal to the leftmost match and the greedy capture.
- **Cacheability policy** (`StatusPolicy`, status_policy.dfy).
  - A status code is rendered as JavaScript renders a number.
  - A code that is present, non-zero and whose decimal string starts with `4` or `5` is not cached.
  - This is proved equivalent to `0 < code` and `4·10^k <= code < 6·10^k` for some `k`.
  - For three-digit codes it is exactly the range 400..599.
- **Key index record** (`KeyIndex`, key_index.dfy).
  - `Serialize` writes what `JSON.stringify` writes for a list of strings.
  - `Parse` reads what `JSON.parse` accepts for such a list: whitespace between tokens and the standard string escapes, `\u` surrogate pairs included.
  - `ReadIndex` turns a stored value into a list. An absent or empty value gives the empty list. A parsable value gives the parsed list. Any other text gives a one-element list holding the raw value, the legacy element.
  - Reading a serialised list gives the same list back.
- **Redis** (`KeyValueStore`, store.dfy).
  - The database is a value map plus a timeout map.
  - SET, EXPIRE and a MULTI/EXEC batch that applies its commands in order.
- **The cache** (`RedisCache`, redis_cache.dfy).
  - The options with their defaults, and the `connected` flag driven by the client's `connect`/`end` events.
  - `Fetch` and `Put` as state transitions. Errors that Redis reports to the GET and EXEC callbacks are passed in as parameters (`StoreFaults`).
  - Proved: when the primary key differs from the index key and the expiration is positive, a fetch after a successful put of the same path and request returns the body; for puts with a positive expiration or a primary key different from the index key, the index only grows, with no de-duplication; every put leaves everything outside the two written keys unchanged.
- **Test scenarios** (`Scenarios`, scenarios.dfy). The outcomes that test/caching-test.js asserts, stated against the model.

Three details of index.js that the model keeps as written:

- The index TTL is the constant `ONE_HOUR` = 3600 s, whatever the configured expiration (index.js:6, 95).
- The index key prefix is `key_index_` (index.js:62).
- The status filter looks only at the first character of the decimal string (index.js:61-65). So 40 and 4000 are not cached either. A negative code such as -404 is cached, because its string starts with `-`.

## Model

| member | source | states |
|---|---|---|
| `KeyDeriver.DefaultCacheKey` | index.js:17-18 | the default strategy `(path) => path`, ignoring the request; see DefaultKeyIsNotIndexKey |
| `KeyDeriver.IndexKey` | index.js:62 | `key_index_` followed by the document id, or by the whole path when there is none; see IndexKeyGrouping and IndexKeyExamples |
| `KeyDeriver.FindIdStart` | index.js:56 | the position returned is a '/' followed by a digit and no earlier position at or after the start is one; None means no such position exists |
| `KeyDeriver.DigitRunEnd` | index.js:56 | the greedy `\d+` run: every character up to the returned end is an ASCII digit, and the end is the end of the path or a non-digit |
| `KeyDeriver.DocumentId` | index.js:56-57 | None exactly when the path has no '/'-then-digit position; otherwise the result is the capture of a leftmost match |
| `KeyDeriver.DocumentIdIsFirstMatch` | index.js:56-57 | `d` is the document id if and only if `d` is what the leftmost `/\/(\d+)/` match captures (non-empty, all digits, preceded by '/', maximal, no earlier match) |
| `KeyDeriver.DocumentIdIsDigits` | index.js:57 | an extracted document id is a non-empty string of ASCII digits |
| `KeyDeriver.IndexKeyGrouping` | index.js:56-62 | for paths containing '/', two paths share an index key if and only if they carry the same document id, or neither carries one and they are equal |
| `KeyDeriver.DefaultKeyIsNotIndexKey` | index.js:17-18 | with the default strategy the primary key `path` never equals the index key of the same path |
| `KeyDeriver.IndexKeyExamples` | test/caching-test.js:152-167 | `/123-abc` and `/123-xyz` index under `key_index_123`, `/` under `key_index_/`, a path without digits under itself |
| `StatusPolicy.DecimalString` | index.js:61 | `statusCode + ''` for an integer: its decimal digits, with a leading `-` for a negative code; see LeadingDigit |
| `StatusPolicy.IsUncacheable` | index.js:60-65 | the status filter: a present, non-zero code whose decimal string starts with `4` or `5`; see UncacheableIff and ThreeDigitCodes |
| `StatusPolicy.LeadingDigit` | index.js:61-65 | a number in `[d·10^k, (d+1)·10^k)` renders with `d` as its first character |
| `StatusPolicy.UncacheableIff` | index.js:60-68 | a status code is refused caching if and only if it is positive and lies in `[4·10^k, 6·10^k)` for some `k`; absent, zero and negative codes are cached |
| `StatusPolicy.ThreeDigitCodes` | index.js:64-65 | for codes 100..999 the refused codes are exactly 400..599 |
| `KeyIndex.Serialize` | index.js:93 | `JSON.stringify` of a list of strings, with its character escapes; see ParseSerialize and SerializeInjective |
| `KeyIndex.Parse` | index.js:79 | `JSON.parse` of an array of strings, `Malformed` for other text; see ParseSerialize, ParseIgnoresPadding and SurrogatePairDecodes |
| `KeyIndex.ReadIndex` | index.js:74-84 | the list a stored index value stands for: `[]` for a missing or empty value, the parsed list, or the raw value as one legacy key; see ReadSerialized and Scenarios.LegacyText |
| `KeyIndex.AppendKey` | index.js:86 | `keys.push(key)`: the read list with the key added at the end, duplicates kept; see IndexAccumulates |
| `KeyIndex.ParseEscapedChar` | index.js:79 | the escape written for any character is decoded back to that character and parsing continues right after it |
| `KeyIndex.SurrogatePairDecodes` | index.js:79 | a `\uD800`–`\uDBFF` escape followed by a `\uDC00`–`\uDFFF` escape, written in lowercase hex, decodes to the character outside the Basic Multilingual Plane that the pair encodes, as `JSON.parse` decodes it (the parser accepts uppercase hex as well) |
| `KeyIndex.ParseEscaped` | index.js:79 | an escaped string followed by its closing quote is read back exactly, leaving the remaining text |
| `KeyIndex.ParseItemsRoundTrip` | index.js:79 | the items of a non-empty written list, followed by `]`, are read back as that list |
| `KeyIndex.ParseIgnoresPadding` | index.js:79 | JSON whitespace before and after a written list does not change what is parsed |
| `KeyIndex.ParseSerialize` | index.js:78-93 | parsing what was written for a list gives back the list |
| `KeyIndex.SerializeInjective` | index.js:93 | different lists are written as different texts |
| `KeyIndex.ReadSerialized` | index.js:74-86 | a stored list is read back as that list, never as a legacy value |
| `KeyValueStore.Apply` | index.js:92-95 | SET stores the value and clears the timeout; EXPIRE records a positive timeout on an existing key, deletes the key for a non-positive one, and changes nothing on a missing key; other keys are untouched; timeouts stay on existing keys only |
| `KeyValueStore.Exec` | index.js:91-96 | a batch changes no key that none of its commands names, and keeps timeouts on existing keys only |
| `RedisCache.NewCache` | index.js:9-18 | a new cache is disconnected; a falsy expiration becomes 300 s, a truthy one is kept; a missing key strategy becomes the path itself |
| `RedisCache.OnEvent` | index.js:20-32 | `connect` sets the flag, `end` clears it, `error` leaves it; nothing else changes |
| `RedisCache.ConnectedAfterEvents` | index.js:20-32 | after any run of client events, the cache is connected exactly when some `connect` has no `end` after it, or it started connected and no `end` came; `error` never matters |
| `RedisCache.Fetch` | index.js:35-48 | skipped exactly when disconnected; rejected exactly when connected and GET fails; otherwise resolves to the value stored under the strategy's key for the path and request |
| `RedisCache.Put` | index.js:51-106 | disconnected: skipped, store unchanged; refused status: resolves, store unchanged; rejected exactly when a GET or EXEC error occurs, store unchanged; only the primary key and the index key can change |
| `RedisCache.RequestOf` | index.js:54 | `response && response.req`: the request when a response is given, absent otherwise; see Put |
| `RedisCache.StatusOf` | index.js:60 | `response && response.statusCode`: the status code when a response is given, absent otherwise; see Put and StatusFilter |
| `RedisCache.PutCommands` | index.js:91-95 | the MULTI batch in source order: SET key, SET index, EXPIRE key by the expiration, EXPIRE index by 3600 s; see PutCommits |
| `RedisCache.PutCommits` | index.js:74-95 | a committed put stores the previous index list plus the new key with a 3600 s timeout, and the body with the configured timeout; a non-positive expiration deletes the body; when the two keys coincide, the index write wins under a positive expiration and both are gone under a non-positive one |
| `RedisCache.PutThenFetch` | index.js:38-92 | with a positive expiration and a primary key different from the index key, after a committed put, a fetch of the same path and request returns the body |
| `RedisCache.DefaultPutThenFetch` | test/caching-test.js:20-35 | with the default key strategy, no expiration option or a non-negative one, and a status that is not refused, the put-then-fetch round trip holds for every path and body |
| `RedisCache.PutAppendsKey` | index.js:70-95 | one put into a shared index, with a positive expiration or a primary key different from the index key, appends its key when the status lets it through and leaves the list alone otherwise |
| `RedisCache.IndexAccumulates` | index.js:70-95 | after a sequence of puts whose paths share an index key, each with a positive expiration or a primary key different from the index key, the index reads as the previous list followed by the keys of every cached put, in call order, with duplicates kept; a legacy value stays first |
| `Scenarios.LegacyMigration` | test/caching-test.js:130-149 | a stored `garbage_key` index value becomes `["garbage_key","foo.com/_mmmmmm"]` and the body is stored |
| `Scenarios.LegacyText` | index.js:78-83 | a non-empty stored value that is all whitespace, or whose first character after leading whitespace is not `[`, fails to parse and is read as a one-element legacy list |
| `Scenarios.TwoHostsOneIndex` | test/caching-test.js:94-127 | two hosts putting `/` keep both bodies and one index `["foo.com/_mmmmmm","bar.com/_mmmmmm"]` |
| `Scenarios.DocumentIdIndex` | test/caching-test.js:152-167 | putting `/123-abc` stores the body and the index `key_index_123` = `["foo.com/123-abc_mmmmmm"]` |
| `Scenarios.DocumentIdGrouping` | index.js:56-62 | for any host and cookie, puts of `/123-abc` then `/123-xyz` leave both keys, in order, in `key_index_123` |
| `Scenarios.StatusFilter` | test/caching-test.js:37-62 | with default options, a three-digit status puts the body under `/` exactly when it is not a 4xx or 5xx code |

## Left out

- Redis client construction, host and port, and the wiring of the event handlers. Only the resulting `connected` flag and its transitions are modelled. The handlers' log lines go through `this.ui`, which this class never sets; that I/O is not modelled.
- `console.log` and `console.error` diagnostics (index.js:81, 88-89), because they only log.
- Promise and callback plumbing. `put` is one atomic transition that either commits the whole batch or rejects with the store unchanged.
- Concurrent `put` calls racing on one index record. Lost updates need an interleaving model, and the model is sequential.
- Expiry over time. Timeouts are recorded, never counted down.
- JSON values other than a list of strings, because the model's parser reads only that shape. The model treats them as legacy values. In index.js, an array with non-string elements is extended, and any other value makes `keys.push` throw inside the GET callback.
- Lone UTF-16 surrogates. A Dafny character is a Unicode scalar value and cannot hold one. So a key cannot contain one, and the model's parser treats a `\u` escape of an unpaired surrogate as malformed. index.js keeps it inside the string. A surrogate pair is decoded to its combined character.
- Status codes that are not integers (strings, fractions), because the model's status code is an `int`. Rendering of integers of magnitude 10^21 and above is not modelled. Exponent notation still starts with the leading digit, so the first character would be the same.
- A key strategy that throws. The test strategy throws when there is no request. Strategies in the model are total functions.
- A non-integer `expiration` option and a missing options object. Both are outside what the constructor handles.
- `typeof options.cacheKey === 'function'`: a non-function `cacheKey` value is modelled as an absent option.

=== FILE: key_deriver.dfy ===
/**
  Key derivation of the cache (index.js:17-18, 54-62).

  The primary key comes from a pluggable strategy over the request path and the
  optional request object; the default strategy is the path itself. The index key
  groups every primary key written for one logical resource: it is `key_index_`
  followed by the document id embedded in the path (the digit run matched by the
  regular expression `/\/(\d+)/`) or, when the path has none, by the whole path.
*/
module KeyDeriver {
  import opened Wrappers

  /** Prefix of every index key (index.js:62). */
  const IndexPrefix: string := "key_index_"

  /** A key strategy maps a path and the (possibly absent) request to a primary key. */
  type KeyStrategy<!R> = (string, Option<R>) -> string

  /** The default strategy `(path) => path` (index.js:17-18). */
  function DefaultCacheKey<R>(path: string, request: Option<R>): string {
    path
  }

  /** `\d` of a JavaScript regular expression: an ASCII digit. */
  predicate IsDigit(c: char) {
    '0' <= c <= '9'
  }

  predicate AllDigits(s: string) {
    forall k :: 0 <= k < |s| ==> IsDigit(s[k])
  }

  /** Position `i` of `p` is where `/\/(\d+)/` can match: a '/' followed by a digit. */
  predicate IdStartAt(p: string, i: int) {
    0 <= i && i + 1 < |p| && p[i] == '/' && IsDigit(p[i + 1])
  }

  /**
    `d` is what the regular expression captures in `p` when its leftmost match
    begins at `i`: `i` is the first match position and `d` is the longest
    non-empty digit run right after the '/'.
  */
  predicate IsFirstIdAt(p: string, i: int, d: string) {
    && IdStartAt(p, i)
    && (forall k :: 0 <= k < i ==> !IdStartAt(p, k))
    && 0 < |d|
    && i + 1 + |d| <= |p|
    && p[i + 1..i + 1 + |d|] == d
    && AllDigits(d)
    && (i + 1 + |d| == |p| || !IsDigit(p[i + 1 + |d|]))
  }

  /** The leftmost match position at or after `from`. */
  function FindIdStart(p: string, from: nat): (r: Option<nat>)
    requires from <= |p|
    ensures r.Some? ==> from <= r.value && IdStartAt(p, r.value)
    ensures r.Some? ==> forall k :: from <= k < r.value ==> !IdStartAt(p, k)
    ensures r.None? ==> forall k :: from <= k ==> !IdStartAt(p, k)
    decreases |p| - from
  {
    if from == |p| then None
    else if IdStartAt(p, from) then Some(from)
    else FindIdStart(p, from + 1)
  }

  /** End of the greedy `\d+` run that starts at `j`. */
  function DigitRunEnd(p: string, j: nat): (e: nat)
    requires j <= |p|
    ensures j <= e <= |p|
    ensures forall k :: j <= k < e ==> IsDigit(p[k])
    ensures e == |p| || !IsDigit(p[e])
    decreases |p| - j
  {
    if j < |p| && IsDigit(p[j]) then DigitRunEnd(p, j + 1) else j
  }

  /**
    Capture group 1 of `/\/(\d+)/.exec(path)`, or None when the expression does
    not match (index.js:56-57).
  */
  function DocumentId(p: string): (r: Option<string>)
    ensures r.None? <==> forall i :: !IdStartAt(p, i)
    ensures r.Some? ==> exists i :: IsFirstIdAt(p, i, r.value)
  {
    match FindIdStart(p, 0)
    case None => None
    case Some(i) =>
      var e := DigitRunEnd(p, i + 1);
      assert IsFirstIdAt(p, i, p[i + 1..e]);
      Some(p[i + 1..e])
  }

  /** The index key of a path: `key_index_${documentId || path}` (index.js:62). */
  function IndexKey(path: string): string {
    IndexPrefix + DocumentId(path).GetOr(path)
  }

  /** The match the regular expression reports is unique. */
  lemma FirstIdUnique(p: string, i: int, d: string, i': int, d': string)
    requires IsFirstIdAt(p, i, d) && IsFirstIdAt(p, i', d')
    ensures i == i' && d == d'
  {
    assert i == i';
    assert forall k :: i + 1 <= k < i + 1 + |d| ==> IsDigit(p[k]) by {
      forall k | i + 1 <= k < i + 1 + |d| ensures IsDigit(p[k]) {
        assert p[k] == p[i + 1..i + 1 + |d|][k - i - 1] == d[k - i - 1];
      }
    }
    assert forall k :: i + 1 <= k < i + 1 + |d'| ==> IsDigit(p[k]) by {
      forall k | i + 1 <= k < i + 1 + |d'| ensures IsDigit(p[k]) {
        assert p[k] == p[i' + 1..i' + 1 + |d'|][k - i - 1] == d'[k - i - 1];
      }
    }
    assert |d| == |d'|;
  }

  /**
    DocumentId returns exactly the capture of the leftmost match: `d` is the
    document id of `p` if and only if `d` is captured by the first match.
  */
  lemma DocumentIdIsFirstMatch(p: string, d: string)
    ensures DocumentId(p) == Some(d) <==> exists i :: IsFirstIdAt(p, i, d)
  {
    if i :| IsFirstIdAt(p, i, d) {
      var r := DocumentId(p);
      assert r.Some?;
      var j :| IsFirstIdAt(p, j, r.value);
      FirstIdUnique(p, i, d, j, r.value);
    }
  }

  /** A document id is a non-empty run of ASCII digits. */
  lemma DocumentIdIsDigits(p: string)
    requires DocumentId(p).Some?
    ensures 0 < |DocumentId(p).value| && AllDigits(DocumentId(p).value)
  {
    var i :| IsFirstIdAt(p, i, DocumentId(p).value);
  }

  /**
    How paths share an index record: among paths that contain a '/', two paths
    share an index key exactly when they carry the same document id, or when
    neither carries one and they are the same path.
  */
  lemma IndexKeyGrouping(p1: string, p2: string)
    requires '/' in p1 && '/' in p2
    ensures IndexKey(p1) == IndexKey(p2) <==>
      (DocumentId(p1) == DocumentId(p2) && (DocumentId(p1).Some? || p1 == p2))
  {
    var t1 := DocumentId(p1).GetOr(p1);
    var t2 := DocumentId(p2).GetOr(p2);
    if IndexKey(p1) == IndexKey(p2) {
      assert t1 == IndexKey(p1)[|IndexPrefix|..] == IndexKey(p2)[|IndexPrefix|..] == t2;
      if DocumentId(p1).Some? && DocumentId(p2).None? {
        DocumentIdIsDigits(p1);
        NoSlashInDigits(t1);
      } else if DocumentId(p1).None? && DocumentId(p2).Some? {
        DocumentIdIsDigits(p2);
        NoSlashInDigits(t2);
      }
    }
  }

  lemma NoSlashInDigits(s: string)
    requires AllDigits(s)
    ensures '/' !in s
  {
  }

  /**
    With the default strategy the primary key never coincides with the index key,
    so the body write and the index write of one put never collide.
  */
  lemma DefaultKeyIsNotIndexKey<R>(path: string, request: Option<R>)
    ensures DefaultCacheKey(path, request) != IndexKey(path)
  {
    match DocumentId(path)
    case None =>
      assert |IndexKey(path)| == |IndexPrefix| + |path|;
    case Some(d) =>
      var i :| IsFirstIdAt(path, i, d);
      DocumentIdIsDigits(path);
      NoSlashInDigits(d);
      assert '/' !in IndexPrefix;
      assert '/' !in IndexKey(path) by {
        assert IndexKey(path) == IndexPrefix + d;
      }
      assert path[i] == '/';
  }

  /** The grouping examples: `/123-abc` and `/123-xyz` share `key_index_123`; `/` indexes under itself. */
  lemma IndexKeyExamples()
    ensures IndexKey("/123-abc") == "key_index_123"
    ensures IndexKey("/123-xyz") == "key_index_123"
    ensures IndexKey("/") == "key_index_/"
    ensures IndexKey("/about/team") == "key_index_/about/team"
  {
    assert IsFirstIdAt("/123-abc", 0, "123");
    DocumentIdIsFirstMatch("/123-abc", "123");
    assert IsFirstIdAt("/123-xyz", 0, "123");
    DocumentIdIsFirstMatch("/123-xyz", "123");
    assert DocumentId("/") == None;
    var q := "/about/team";
    assert forall i :: !IdStartAt(q, i) by {
      forall i | 0 <= i < |q| - 1 ensures !IdStartAt(q, i) {
        assert !IsDigit(q[i + 1]);
      }
    }
  }
}

=== FILE: key_index.dfy ===
/**
  The key index record (index.js:74-89): a list of primary keys stored as the
  JSON text of an array of strings.

  `Serialize` writes what `JSON.stringify` writes for an array of strings.
  `Parse` reads what `JSON.parse` accepts when the text is an array of strings:
  whitespace between tokens and every string escape, a `\u` surrogate pair
  included, except a `\u` escape of a lone surrogate, which stands for no
  character. Any other text is `Malformed`, and the record reader then
  keeps the raw stored value as the single legacy element of the list.
*/
module KeyIndex {
  import opened Wrappers

  // ---------------------------------------------------------------- writing

  function HexDigit(v: int): char
    requires 0 <= v < 16
  {
    if v < 10 then ('0' as int + v) as char else ('a' as int + v - 10) as char
  }

  /** The text `JSON.stringify` writes for one character inside a string literal. */
  function EscapeChar(c: char): string {
    if c == '"' then ['\\', '"']
    else if c == '\\' then ['\\', '\\']
    else if c == 8 as char then ['\\', 'b']
    else if c == 12 as char then ['\\', 'f']
    else if c == '\n' then ['\\', 'n']
    else if c == '\r' then ['\\', 'r']
    else if c == '\t' then ['\\', 't']
    else if (c as int) < 0x20 then ['\\', 'u', '0', '0', HexDigit(c as int / 16), HexDigit(c as int % 16)]
    else [c]
  }

  function Escape(s: string): string {
    if |s| == 0 then [] else EscapeChar(s[0]) + Escape(s[1..])
  }

  function QuoteString(s: string): string {
    ['"'] + Escape(s) + ['"']
  }

  /** The comma-separated string literals of an array. */
  function Items(keys: seq<string>): string {
    if |keys| == 0 then []
    else if |keys| == 1 then QuoteString(keys[0])
    else QuoteString(keys[0]) + [','] + Items(keys[1..])
  }

  /** `JSON.stringify(keys)` for an array of strings (index.js:89, 93). */
  function Serialize(keys: seq<string>): string {
    ['['] + Items(keys) + [']']
  }

  // ---------------------------------------------------------------- reading

  predicate IsWhitespace(c: char) {
    c == ' ' || c == '\t' || c == '\n' || c == '\r'
  }

  function SkipWhitespace(s: string): (r: string)
    ensures |r| <= |s|
    ensures |r| > 0 ==> !IsWhitespace(r[0])
  {
    if |s| > 0 && IsWhitespace(s[0]) then SkipWhitespace(s[1..]) else s
  }

  function HexValue(c: char): (r: Option<int>)
    ensures r.Some? ==> 0 <= r.value < 16
  {
    if '0' <= c <= '9' then Some(c as int - '0' as int)
    else if 'a' <= c <= 'f' then Some(c as int - 'a' as int + 10)
    else if 'A' <= c <= 'F' then Some(c as int - 'A' as int + 10)
    else None
  }

  /** Value of four hexadecimal digits. */
  function Hex4(t: string): (r: Option<int>)
    requires |t| >= 4
    ensures r.Some? ==> 0 <= r.value < 0x10000
  {
    match (HexValue(t[0]), HexValue(t[1]), HexValue(t[2]), HexValue(t[3]))
    case (Some(a), Some(b), Some(c), Some(d)) => Some(((a * 16 + b) * 16 + c) * 16 + d)
    case _ => None
  }

  /**
    Decodes the escape sequence that follows a backslash in a JSON string:
    the character it denotes and how many characters of `t` it spans.
  */
  function Unescape(t: string): (r: Option<(char, nat)>)
    ensures r.Some? ==> 1 <= r.value.1 <= |t|
  {
    if |t| == 0 then None
    else if t[0] == '"' || t[0] == '\\' || t[0] == '/' then Some((t[0], 1))
    else if t[0] == 'b' then Some((8 as char, 1))
    else if t[0] == 'f' then Some((12 as char, 1))
    else if t[0] == 'n' then Some(('\n', 1))
    else if t[0] == 'r' then Some(('\r', 1))
    else if t[0] == 't' then Some(('\t', 1))
    else if t[0] == 'u' && |t| >= 5 then
      match Hex4(t[1..5])
      case None => None
      case Some(v) =>
        if v < 0xD800 || 0xDFFF < v then Some((v as char, 5))
        else if v <= 0xDBFF && |t| >= 11 && t[5] == '\\' && t[6] == 'u' then
          match Hex4(t[7..11])
          case None => None
          case Some(w) => if 0xDC00 <= w <= 0xDFFF then Some((Combine(v, w), 11)) else None
        else None
    else None
  }

  /** The character a UTF-16 high surrogate followed by a low surrogate stands for. */
  function Combine(hi: int, lo: int): (c: char)
    requires 0xD800 <= hi <= 0xDBFF && 0xDC00 <= lo <= 0xDFFF
    ensures 0x10000 <= c as int <= 0x10FFFF
  {
    var n := 0x10000 + (hi - 0xD800) * 0x400 + (lo - 0xDC00);
    assert n <= 0x10000 + 0x3FF * 0x400 + 0x3FF by {
      assert (hi - 0xD800) * 0x400 <= 0x3FF * 0x400;
    }
    n as char
  }

  /**
    Reads the rest of a string literal whose opening quote is already consumed:
    the decoded characters and the text after the closing quote.
  */
  function ParseStringBody(s: string): (r: Option<(string, string)>)
    ensures r.Some? ==> |r.value.1| < |s|
    decreases |s|
  {
    if |s| == 0 then None
    else if s[0] == '"' then Some(([], s[1..]))
    else if s[0] == '\\' then
      match Unescape(s[1..])
      case None => None
      case Some((c, n)) =>
        match ParseStringBody(s[1 + n..])
        case None => None
        case Some((d, rest)) => Some(([c] + d, rest))
    else if (s[0] as int) < 0x20 then None
    else
      match ParseStringBody(s[1..])
      case None => None
      case Some((d, rest)) => Some(([s[0]] + d, rest))
  }

  /**
    Reads the string elements of an array from the first element's opening
    quote up to and including the closing bracket.
  */
  function ParseItems(s: string): (r: Option<(seq<string>, string)>)
    ensures r.Some? ==> |r.value.1| < |s|
    decreases |s|
  {
    if |s| == 0 || s[0] != '"' then None
    else
      match ParseStringBody(s[1..])
      case None => None
      case Some((x, afterString)) =>
        var t := SkipWhitespace(afterString);
        if |t| == 0 then None
        else if t[0] == ']' then Some(([x], t[1..]))
        else if t[0] == ',' then
          match ParseItems(SkipWhitespace(t[1..]))
          case None => None
          case Some((xs, rest)) => Some(([x] + xs, rest))
        else None
  }

  datatype ParsedIndex = Keys(keys: seq<string>) | Malformed

  /** `JSON.parse(raw)` where the outcome is an array of strings; everything else is `Malformed`. */
  function Parse(raw: string): ParsedIndex {
    var s := SkipWhitespace(raw);
    if |s| == 0 || s[0] != '[' then Malformed
    else
      var t := SkipWhitespace(s[1..]);
      if |t| > 0 && t[0] == ']' then
        (if SkipWhitespace(t[1..]) == [] then Keys([]) else Malformed)
      else
        match ParseItems(t)
        case None => Malformed
        case Some((keys, rest)) => if SkipWhitespace(rest) == [] then Keys(keys) else Malformed
  }

  // ------------------------------------------------------- the index record

  /**
    The list a stored index value stands for (index.js:74-84): nothing for an
    absent or empty value, the parsed list for a well-formed one, and the raw
    value as its single legacy element otherwise.
  */
  function ReadIndex(stored: Option<string>): seq<string> {
    match stored
    case None => []
    case Some(raw) =>
      if raw == [] then []
      else
        match Parse(raw)
        case Keys(keys) => keys
        case Malformed => [raw]
  }

  /** The list `put` writes back: the old list with the new key pushed, no de-duplication (index.js:86). */
  function AppendKey(stored: Option<string>, key: string): seq<string> {
    ReadIndex(stored) + [key]
  }

  // ------------------------------------------------------------ round trip

  lemma HexRoundTrip(v: int)
    requires 0 <= v < 16
    ensures HexValue(HexDigit(v)) == Some(v)
  {
  }

  /** One escaped character is decoded back to itself and parsing carries on after it. */
  lemma ParseEscapedChar(c: char, t: string)
    ensures ParseStringBody(EscapeChar(c) + t) ==
      match ParseStringBody(t)
      case None => None
      case Some((d, rest)) => Some(([c] + d, rest))
  {
    var e := EscapeChar(c);
    var s := e + t;
    if |e| == 1 {
      assert s[1..] == t;
    } else if |e| == 2 {
      assert s[1..] == [e[1]] + t;
      assert s[2..] == t;
    } else {
      assert s[0] == '\\' && s[1..] == e[1..] + t;
      ControlEscapeRead(c, t);
      assert s[1 + 5..] == t;
    }
  }

  /** The `\u00XX` escape written for a control character decodes back to it. */
  lemma ControlEscapeRead(c: char, t: string)
    requires |EscapeChar(c)| == 6
    ensures Unescape(EscapeChar(c)[1..] + t) == Some((c, 5))
  {
    var e := EscapeChar(c);
    var v := c as int;
    var hi, lo := HexDigit(v / 16), HexDigit(v % 16);
    assert e == ['\\', 'u', '0', '0', hi, lo];
    var u := e[1..] + t;
    assert u[0] == 'u';
    assert u[1..5] == ['0', '0', hi, lo] by {
      forall k | 0 <= k < 4 ensures u[1..5][k] == ['0', '0', hi, lo][k] {
        assert u[1..5][k] == e[k + 2];
      }
    }
    HexRoundTrip(v / 16);
    HexRoundTrip(v % 16);
    assert ((0 * 16 + 0) * 16 + v / 16) * 16 + v % 16 == v;
    assert Hex4(['0', '0', hi, lo]) == Some(v);
  }

  /** Four lowercase hexadecimal digits, most significant first. */
  function Hex4Text(v: int): (t: string)
    requires 0 <= v < 0x10000
    ensures |t| == 4
  {
    [HexDigit(v / 0x1000), HexDigit(v / 0x100 % 16), HexDigit(v / 16 % 16), HexDigit(v % 16)]
  }

  lemma Hex4RoundTrip(v: int)
    requires 0 <= v < 0x10000
    ensures Hex4(Hex4Text(v)) == Some(v)
  {
    HexRoundTrip(v / 0x1000);
    HexRoundTrip(v / 0x100 % 16);
    HexRoundTrip(v / 16 % 16);
    HexRoundTrip(v % 16);
    assert v / 0x100 == v / 0x1000 * 16 + v / 0x100 % 16;
    assert v / 16 == v / 0x100 * 16 + v / 16 % 16;
    assert v == v / 16 * 16 + v % 16;
  }

  /** The UTF-16 high surrogate of a character outside the Basic Multilingual Plane. */
  function HighSurrogate(c: char): (h: int)
    requires 0x10000 <= c as int
    ensures 0xD800 <= h <= 0xDBFF
  {
    0xD800 + (c as int - 0x10000) / 0x400
  }

  /** The UTF-16 low surrogate of a character outside the Basic Multilingual Plane. */
  function LowSurrogate(c: char): (l: int)
    requires 0x10000 <= c as int
    ensures 0xDC00 <= l <= 0xDFFF
  {
    0xDC00 + (c as int - 0x10000) % 0x400
  }

  /**
    A `\u` surrogate pair, as `JSON.parse` accepts it for a character outside
    the Basic Multilingual Plane, decodes to that character and spans eleven
    characters after the backslash.
  */
  lemma SurrogatePairDecodes(c: char, rest: string)
    requires 0x10000 <= c as int
    ensures Unescape(['u'] + Hex4Text(HighSurrogate(c)) + ['\\', 'u'] + Hex4Text(LowSurrogate(c)) + rest)
      == Some((c, 11))
  {
    var h, l := HighSurrogate(c), LowSurrogate(c);
    var t := ['u'] + Hex4Text(h) + ['\\', 'u'] + Hex4Text(l) + rest;
    assert t[1..5] == Hex4Text(h);
    assert t[7..11] == Hex4Text(l);
    assert t[5] == '\\' && t[6] == 'u';
    Hex4RoundTrip(h);
    Hex4RoundTrip(l);
    assert Combine(h, l) as int == c as int;
  }

  /** An escaped string followed by a closing quote is read back exactly. */
  lemma {:induction false} ParseEscaped(x: string, rest: string)
    ensures ParseStringBody(Escape(x) + ['"'] + rest) == Some((x, rest))
    decreases |x|
  {
    if |x| == 0 {
      assert Escape(x) + ['"'] + rest == ['"'] + rest;
    } else {
      var t := Escape(x[1..]) + ['"'] + rest;
      assert Escape(x) + ['"'] + rest == EscapeChar(x[0]) + t;
      ParseEscapedChar(x[0], t);
      ParseEscaped(x[1..], rest);
      assert [x[0]] + x[1..] == x;
    }
  }

  /** Reading one string literal of an array, then the separator or bracket after it. */
  lemma ParseItemsStep(x: string, tail: string)
    requires 0 < |tail| && (tail[0] == ']' || tail[0] == ',')
    ensures ParseItems(QuoteString(x) + tail) ==
      if tail[0] == ']' then Some(([x], tail[1..]))
      else
        match ParseItems(SkipWhitespace(tail[1..]))
        case None => None
        case Some((xs, rest)) => Some(([x] + xs, rest))
  {
    var s := QuoteString(x) + tail;
    QuotedStringRead(x, tail);
    assert SkipWhitespace(tail) == tail;
  }

  /** A quoted string at the head of the text is read back with the text after it. */
  lemma QuotedStringRead(x: string, tail: string)
    ensures var s := QuoteString(x) + tail;
      0 < |s| && s[0] == '"' && ParseStringBody(s[1..]) == Some((x, tail))
  {
    var s := QuoteString(x) + tail;
    assert s[1..] == Escape(x) + ['"'] + tail;
    ParseEscaped(x, tail);
  }

  /** The items of a non-empty list followed by the closing bracket are read back exactly. */
  lemma {:induction false} ParseItemsRoundTrip(keys: seq<string>, rest: string)
    requires 0 < |keys|
    ensures ParseItems(Items(keys) + [']'] + rest) == Some((keys, rest))
    decreases |keys|
  {
    if |keys| == 1 {
      var tail := [']'] + rest;
      assert Items(keys) + [']'] + rest == QuoteString(keys[0]) + tail;
      assert ParseItems(QuoteString(keys[0]) + tail) == Some(([keys[0]], rest)) by {
        ParseItemsStep(keys[0], tail);
        assert tail[1..] == rest;
      }
      assert [keys[0]] == keys;
    } else {
      var more := Items(keys[1..]) + [']'] + rest;
      var tail := [','] + more;
      assert Items(keys) + [']'] + rest == QuoteString(keys[0]) + tail;
      assert ParseItems(more) == Some((keys[1..], rest)) by {
        ParseItemsRoundTrip(keys[1..], rest);
      }
      assert ParseItems(QuoteString(keys[0]) + tail) == Some(([keys[0]] + keys[1..], rest)) by {
        ParseItemsStep(keys[0], tail);
        assert tail[1..] == more;
        assert more[0] == '"';
        assert SkipWhitespace(more) == more;
      }
      assert [keys[0]] + keys[1..] == keys;
    }
  }

  /** Parsing what `Serialize` wrote gives back the list: parse after stringify is the identity. */
  lemma ParseSerialize(keys: seq<string>)
    ensures Parse(Serialize(keys)) == Keys(keys)
  {
    ParseIgnoresPadding([], keys, []);
    assert [] + Serialize(keys) + [] == Serialize(keys);
  }

  /** Distinct lists are stored as distinct texts. */
  lemma SerializeInjective(a: seq<string>, b: seq<string>)
    requires Serialize(a) == Serialize(b)
    ensures a == b
  {
    ParseSerialize(a);
    ParseSerialize(b);
  }

  /** A stored list is read back as that list, so each put grows it by exactly its own key. */
  lemma ReadSerialized(keys: seq<string>)
    ensures ReadIndex(Some(Serialize(keys))) == keys
  {
    ParseSerialize(keys);
  }

  lemma {:induction false} SkipLeadingWhitespace(w: string, s: string)
    requires forall k :: 0 <= k < |w| ==> IsWhitespace(w[k])
    requires |s| == 0 || !IsWhitespace(s[0])
    ensures SkipWhitespace(w + s) == s
    decreases |w|
  {
    if |w| > 0 {
      assert (w + s)[1..] == w[1..] + s;
      SkipLeadingWhitespace(w[1..], s);
    } else {
      assert w + s == s;
    }
  }

  /** Text that is an empty array once leading whitespace is skipped parses to the empty list. */
  lemma ParseEmptyArray(raw: string, after: string)
    requires SkipWhitespace(raw) == ['[', ']'] + after && SkipWhitespace(after) == []
    ensures Parse(raw) == Keys([])
  {
    var s := ['[', ']'] + after;
    assert s[1..] == [']'] + after && SkipWhitespace(s[1..]) == s[1..];
    assert s[1..][1..] == after;
  }

  /** Text whose items after the opening bracket read as `keys`, with only whitespace left, parses to `keys`. */
  lemma ParseArray(raw: string, body: string, keys: seq<string>, after: string)
    requires SkipWhitespace(raw) == ['['] + body && 0 < |body| && body[0] == '"'
    requires ParseItems(body) == Some((keys, after)) && SkipWhitespace(after) == []
    ensures Parse(raw) == Keys(keys)
  {
    var s := ['['] + body;
    assert s[1..] == body && SkipWhitespace(body) == body;
  }

  /** Whitespace before and after the array text is ignored, as `JSON.parse` ignores it. */
  lemma ParseIgnoresPadding(before: string, keys: seq<string>, after: string)
    requires forall k :: 0 <= k < |before| ==> IsWhitespace(before[k])
    requires forall k :: 0 <= k < |after| ==> IsWhitespace(after[k])
    ensures Parse(before + Serialize(keys) + after) == Keys(keys)
  {
    var raw := before + Serialize(keys) + after;
    var s := Serialize(keys) + after;
    assert SkipWhitespace(raw) == s by {
      assert raw == before + s;
      SkipLeadingWhitespace(before, s);
    }
    assert SkipWhitespace(after) == [] by {
      SkipLeadingWhitespace(after, []);
      assert after + [] == after;
    }
    if |keys| == 0 {
      assert s == ['[', ']'] + after;
      ParseEmptyArray(raw, after);
    } else {
      var body := Items(keys) + [']'] + after;
      assert s == ['['] + body;
      assert ParseItems(body) == Some((keys, after)) by {
        ParseItemsRoundTrip(keys, after);
      }
      ParseArray(raw, body, keys, after);
    }
  }
}

=== FILE: redis_cache.dfy ===
/**
  The `RedisCache` class (index.js:8-107): its options, the connection flag that
  gates every operation, `fetch`, and `put` as one state transition of the store.

  What the Redis client reports back (an error from GET or from EXEC) is a
  parameter of the operations; a failing EXEC leaves the store unchanged.
*/
module RedisCache {
  import opened Wrappers
  import opened KeyDeriver
  import opened StatusPolicy
  import opened KeyIndex
  import opened KeyValueStore

  /** `FIVE_MINUTES` and `ONE_HOUR` (index.js:5-6), in seconds. */
  const FiveMinutes: int := 5 * 60
  const OneHour: int := 12 * FiveMinutes

  /** The options the constructor reads besides host and port (index.js:15-18). */
  datatype Options<!R> = Options(expiration: Option<int>, cacheKey: Option<KeyStrategy<R>>)

  datatype Cache<!R> = Cache(expiration: int, connected: bool, cacheKey: KeyStrategy<R>)

  /**
    The constructor (index.js:9-18): a falsy expiration (absent or 0) becomes
    five minutes, a missing key strategy becomes the path itself, and the cache
    starts disconnected.
  */
  function NewCache<R>(options: Options<R>): (c: Cache<R>)
    ensures !c.connected
    ensures c.expiration != 0
    ensures options.expiration.Some? && options.expiration.value != 0 ==>
      c.expiration == options.expiration.value
    ensures options.expiration.None? || options.expiration == Some(0) ==> c.expiration == FiveMinutes
    ensures options.cacheKey.None? ==> c.cacheKey == DefaultCacheKey
    ensures options.cacheKey.Some? ==> c.cacheKey == options.cacheKey.value
  {
    var expiration :=
      match options.expiration
      case Some(e) => if e != 0 then e else FiveMinutes
      case None => FiveMinutes;
    var cacheKey :=
      match options.cacheKey
      case Some(f) => f
      case None => DefaultCacheKey;
    Cache(expiration, false, cacheKey)
  }

  /** The events of the Redis client the constructor subscribes to (index.js:20-32). */
  datatype ClientEvent = Connect | End | Error

  /**
    `connect` raises the flag and `end` lowers it; `error` only logs. Each
    handler's log line goes through `this.ui`, which this class never sets;
    it runs after the flag is written, so the flag change stands.
  */
  function OnEvent<R>(c: Cache<R>, e: ClientEvent): (c': Cache<R>)
    ensures c'.connected <==> e == Connect || (e == Error && c.connected)
    ensures c'.expiration == c.expiration && c'.cacheKey == c.cacheKey
  {
    match e
    case Connect => c.(connected := true)
    case End => c.(connected := false)
    case Error => c
  }

  /** The cache after the client emitted `events`, oldest first. */
  function Replay<R>(c: Cache<R>, events: seq<ClientEvent>): Cache<R>
    decreases |events|
  {
    if |events| == 0 then c else OnEvent(Replay(c, events[..|events| - 1]), events[|events| - 1])
  }

  /** No `end` event follows position `i`. */
  predicate NoEndAfter(events: seq<ClientEvent>, i: int) {
    forall j :: 0 <= j < |events| && i < j ==> events[j] != End
  }

  /**
    The flag after a run of client events: the cache is connected exactly when
    some `connect` is followed by no `end`, or it was connected to begin with
    and no `end` came; `error` events never matter.
  */
  lemma {:induction false} ConnectedAfterEvents<R>(c: Cache<R>, events: seq<ClientEvent>)
    ensures Replay(c, events).connected <==>
      (exists i :: 0 <= i < |events| && events[i] == Connect && NoEndAfter(events, i))
      || (c.connected && NoEndAfter(events, -1))
    ensures Replay(c, events).expiration == c.expiration && Replay(c, events).cacheKey == c.cacheKey
    decreases |events|
  {
    if |events| > 0 {
      var n := |events| - 1;
      var pre := events[..n];
      ConnectedAfterEvents(c, pre);
      assert forall j :: 0 <= j < n ==> pre[j] == events[j];
      match events[n]
      case Connect =>
        assert events[n] == Connect && NoEndAfter(events, n);
      case End =>
        assert !NoEndAfter(events, -1);
        forall i | 0 <= i < |events| && events[i] == Connect ensures !NoEndAfter(events, i) {
          assert i < n && events[n] == End;
        }
      case Error =>
        if exists i :: 0 <= i < n && pre[i] == Connect && NoEndAfter(pre, i) {
          var i :| 0 <= i < n && pre[i] == Connect && NoEndAfter(pre, i);
          assert events[i] == Connect && NoEndAfter(events, i);
        }
        if exists i :: 0 <= i < |events| && events[i] == Connect && NoEndAfter(events, i) {
          var i :| 0 <= i < |events| && events[i] == Connect && NoEndAfter(events, i);
          assert i < n;
          assert pre[i] == Connect && NoEndAfter(pre, i);
        }
        assert NoEndAfter(events, -1) <==> NoEndAfter(pre, -1);
    }
  }

  /** The third argument of `put`: the response, carrying the request and the status code. */
  datatype Response<R> = Response(req: Option<R>, statusCode: Option<int>)

  /** `response && response.req` (index.js:54). */
  function RequestOf<R>(response: Option<Response<R>>): Option<R> {
    match response
    case None => None
    case Some(res) => res.req
  }

  /** `response && response.statusCode` (index.js:60). */
  function StatusOf<R>(response: Option<Response<R>>): Option<int> {
    match response
    case None => None
    case Some(res) => res.statusCode
  }

  /** The errors the Redis client reports to the callbacks of GET and EXEC. */
  datatype StoreFaults = StoreFaults(getError: Option<string>, execError: Option<string>)

  const NoFaults: StoreFaults := StoreFaults(None, None)

  /** `fetch` returns nothing when disconnected, else a promise that resolves or rejects. */
  datatype FetchOutcome = FetchSkipped | FetchResolved(reply: Option<string>) | FetchRejected(error: string)

  /** `fetch(path, request)` (index.js:35-48): a GET of the primary key. */
  function Fetch<R>(c: Cache<R>, s: Store, faults: StoreFaults, path: string, request: Option<R>): (r: FetchOutcome)
    ensures r.FetchSkipped? <==> !c.connected
    ensures r.FetchRejected? <==> c.connected && faults.getError.Some?
    ensures r.FetchResolved? ==> r.reply == Get(s, c.cacheKey(path, request))
  {
    if !c.connected then FetchSkipped
    else
      var key := c.cacheKey(path, request);
      match faults.getError
      case Some(e) => FetchRejected(e)
      case None => FetchResolved(Get(s, key))
  }

  /** `put` returns nothing when disconnected, else a promise that resolves or rejects. */
  datatype PutOutcome = PutSkipped | PutResolved | PutRejected(error: string)

  datatype PutResult = PutResult(outcome: PutOutcome, store: Store)

  /** The MULTI batch of a put (index.js:91-95). */
  function PutCommands(key: string, body: string, indexKey: string, keys: seq<string>, expiration: int): seq<Command> {
    [Set(key, body), Set(indexKey, Serialize(keys)), Expire(key, expiration), Expire(indexKey, OneHour)]
  }

  /**
    `put(path, body, response)` (index.js:51-106). Disconnected: nothing
    happens. Uncacheable status: resolves without touching the store. Otherwise
    reads the index record, appends the primary key and commits the body, the
    new index record and both timeouts in one batch; a GET or EXEC error rejects
    and leaves the store as it was.
  */
  function Put<R>(c: Cache<R>, s: Store, faults: StoreFaults, path: string, body: string,
                  response: Option<Response<R>>): (r: PutResult)
    ensures !c.connected ==> r == PutResult(PutSkipped, s)
    ensures c.connected && IsUncacheable(StatusOf(response)) ==> r == PutResult(PutResolved, s)
    ensures r.outcome.PutRejected? <==>
      c.connected && !IsUncacheable(StatusOf(response)) && (faults.getError.Some? || faults.execError.Some?)
    ensures r.outcome.PutRejected? ==> r.store == s
    ensures Valid(s) ==> Valid(r.store)
    ensures forall k :: k != c.cacheKey(path, RequestOf(response)) && k != IndexKey(path) ==> SameAt(s, r.store, k)
  {
    if !c.connected then PutResult(PutSkipped, s)
    else
      var key := c.cacheKey(path, RequestOf(response));
      var indexKey := IndexKey(path);
      if IsUncacheable(StatusOf(response)) then PutResult(PutResolved, s)
      else
        match faults.getError
        case Some(e) => PutResult(PutRejected(e), s)
        case None =>
          var keys := AppendKey(Get(s, indexKey), key);
          match faults.execError
          case Some(e) => PutResult(PutRejected(e), s)
          case None =>
            var cmds := PutCommands(key, body, indexKey, keys, c.expiration);
            assert forall k :: k != key && k != indexKey ==> Untouched(cmds, k);
            PutResult(PutResolved, Exec(s, cmds))
  }

  /**
    A put that commits: the index record holds the previous list with the
    primary key appended and a one-hour timeout; the body is stored under the
    primary key with the configured timeout. When the two keys coincide and the
    timeout is positive the index write, queued second, wins; with a timeout
    that is not positive the first EXPIRE deletes the shared key and the second
    finds nothing to expire.
  */
  lemma PutCommits<R>(c: Cache<R>, s: Store, path: string, body: string, response: Option<Response<R>>)
    requires c.connected && !IsUncacheable(StatusOf(response))
    ensures var key := c.cacheKey(path, RequestOf(response));
      var ik := IndexKey(path);
      var r := Put(c, s, NoFaults, path, body, response);
      && r.outcome == PutResolved
      && (key != ik || c.expiration > 0 ==>
            Get(r.store, ik) == Some(Serialize(ReadIndex(Get(s, ik)) + [key])) && Ttl(r.store, ik) == Some(OneHour))
      && (key != ik && c.expiration > 0 ==> Get(r.store, key) == Some(body) && Ttl(r.store, key) == Some(c.expiration))
      && (key != ik && c.expiration <= 0 ==> Get(r.store, key) == None)
      && (key == ik && c.expiration <= 0 ==> Get(r.store, ik) == None)
  {
    var key := c.cacheKey(path, RequestOf(response));
    var ik := IndexKey(path);
    var keys := AppendKey(Get(s, ik), key);
    var cmds := PutCommands(key, body, ik, keys, c.expiration);
    var s1 := Apply(s, cmds[0]);
    var s2 := Apply(s1, cmds[1]);
    var s3 := Apply(s2, cmds[2]);
    var s4 := Apply(s3, cmds[3]);
    assert cmds[3..][1..] == [] && cmds[2..][1..] == cmds[3..] && cmds[1..][1..] == cmds[2..];
    assert Exec(s3, cmds[3..]) == s4;
    assert Exec(s2, cmds[2..]) == s4;
    assert Exec(s1, cmds[1..]) == s4;
    assert Put(c, s, NoFaults, path, body, response).store == s4;
  }

  /**
    A cached body is served back: after a committed put, a fetch of the same
    path with the same request returns the body, as long as the primary key is
    not the index key and the configured timeout keeps the key alive.
  */
  lemma PutThenFetch<R>(c: Cache<R>, s: Store, path: string, body: string, response: Option<Response<R>>)
    requires c.connected && c.expiration > 0 && !IsUncacheable(StatusOf(response))
    requires c.cacheKey(path, RequestOf(response)) != IndexKey(path)
    ensures Fetch(c, Put(c, s, NoFaults, path, body, response).store, NoFaults, path, RequestOf(response))
      == FetchResolved(Some(body))
  {
    PutCommits(c, s, path, body, response);
  }

  /** With the default key strategy the round trip needs no side condition on the keys. */
  lemma DefaultPutThenFetch<R>(options: Options<R>, s: Store, path: string, body: string, response: Option<Response<R>>)
    requires options.cacheKey.None?
    requires options.expiration.None? || options.expiration.value >= 0
    requires !IsUncacheable(StatusOf(response))
    ensures var c := OnEvent(NewCache(options), Connect);
      Fetch(c, Put(c, s, NoFaults, path, body, response).store, NoFaults, path, RequestOf(response))
        == FetchResolved(Some(body))
  {
    var c := OnEvent(NewCache(options), Connect);
    DefaultKeyIsNotIndexKey(path, RequestOf(response));
    PutThenFetch(c, s, path, body, response);
  }

  /** One call of a sequence of puts. */
  datatype PutCall<R> = PutCall(path: string, body: string, response: Option<Response<R>>)

  /** The store after the calls run one after another with no store errors. */
  function PutAll<R>(c: Cache<R>, s: Store, calls: seq<PutCall<R>>): Store
    decreases |calls|
  {
    if |calls| == 0 then s
    else PutAll(c, Put(c, s, NoFaults, calls[0].path, calls[0].body, calls[0].response).store, calls[1..])
  }

  /** The primary keys of the calls the status policy lets through, in call order. */
  function CachedKeys<R>(c: Cache<R>, calls: seq<PutCall<R>>): seq<string>
    decreases |calls|
  {
    if |calls| == 0 then []
    else if IsUncacheable(StatusOf(calls[0].response)) then CachedKeys(c, calls[1..])
    else [c.cacheKey(calls[0].path, RequestOf(calls[0].response))] + CachedKeys(c, calls[1..])
  }

  /** Every call's path indexes under `ik`, and a call whose key is `ik` does not expire it. */
  predicate SharesIndex<R>(c: Cache<R>, calls: seq<PutCall<R>>, ik: string) {
    forall i :: 0 <= i < |calls| ==>
      IndexKey(calls[i].path) == ik &&
      (c.expiration > 0 || c.cacheKey(calls[i].path, RequestOf(calls[i].response)) != ik)
  }

  /** One put that indexes under `ik` appends its primary key to the record if the status lets it through. */
  lemma PutAppendsKey<R>(c: Cache<R>, s: Store, call: PutCall<R>, ik: string)
    requires c.connected && IndexKey(call.path) == ik
    requires c.expiration > 0 || c.cacheKey(call.path, RequestOf(call.response)) != ik
    ensures ReadIndex(Get(Put(c, s, NoFaults, call.path, call.body, call.response).store, ik))
      == ReadIndex(Get(s, ik)) + CachedKeys(c, [call])
  {
    var key := c.cacheKey(call.path, RequestOf(call.response));
    if IsUncacheable(StatusOf(call.response)) {
      assert ReadIndex(Get(s, ik)) + [] == ReadIndex(Get(s, ik));
    } else {
      PutCommits(c, s, call.path, call.body, call.response);
      ReadSerialized(ReadIndex(Get(s, ik)) + [key]);
      assert CachedKeys(c, [call]) == [key] + CachedKeys(c, [call][1..]);
    }
  }

  /**
    The index record only grows: after puts whose paths share an index key, the
    record reads as the list it held before followed by the primary key of
    every cached call, in call order and with repetitions kept. This covers a
    fresh record, a stored list and a legacy value, which stays first.
  */
  lemma {:induction false} IndexAccumulates<R>(c: Cache<R>, s: Store, calls: seq<PutCall<R>>, ik: string)
    requires c.connected
    requires SharesIndex(c, calls, ik)
    ensures ReadIndex(Get(PutAll(c, s, calls), ik)) == ReadIndex(Get(s, ik)) + CachedKeys(c, calls)
    decreases |calls|
  {
    if |calls| > 0 {
      var call, rest := calls[0], calls[1..];
      var s1 := Put(c, s, NoFaults, call.path, call.body, call.response).store;
      var before, mine, later := ReadIndex(Get(s, ik)), CachedKeys(c, [call]), CachedKeys(c, rest);
      assert ReadIndex(Get(s1, ik)) == before + mine by {
        PutAppendsKey(c, s, call, ik);
      }
      assert ReadIndex(Get(PutAll(c, s1, rest), ik)) == ReadIndex(Get(s1, ik)) + later by {
        assert SharesIndex(c, rest, ik) by {
          forall i | 0 <= i < |rest| ensures rest[i] == calls[i + 1] { }
        }
        IndexAccumulates(c, s1, rest, ik);
      }
      assert CachedKeys(c, calls) == mine + later by {
        CachedKeysSplit(c, calls);
      }
      assert PutAll(c, s, calls) == PutAll(c, s1, rest);
      AppendAssociates(before, mine, later);
    } else {
      AppendNothing(ReadIndex(Get(s, ik)));
    }
  }

  lemma AppendAssociates(a: seq<string>, b: seq<string>, d: seq<string>)
    ensures (a + b) + d == a + (b + d)
  {
  }

  lemma AppendNothing(a: seq<string>)
    ensures a + [] == a
  {
  }

  lemma CachedKeysSplit<R>(c: Cache<R>, calls: seq<PutCall<R>>)
    requires 0 < |calls|
    ensures CachedKeys(c, calls) == CachedKeys(c, [calls[0]]) + CachedKeys(c, calls[1..])
  {
    assert [calls[0]][1..] == [];
  }
}

=== FILE: scenarios.dfy ===
/**
  The behaviours test/caching-test.js checks against its in-memory Redis
  stand-in, stated over the model: a custom key built from the request's host
  name and a cookie, migration of a legacy index value, several hosts sharing
  one index record, document-id grouping and the status filter.
*/
module Scenarios {
  import opened Wrappers
  import opened KeyDeriver
  import opened StatusPolicy
  import opened KeyIndex
  import opened KeyValueStore
  import opened RedisCache

  /** The part of a request the custom strategy of the tests looks at. */
  datatype Request = Request(hostname: string, chocolateChip: string)

  /**
    `${request.hostname}${path}_${request.cookies.chocolateChip}`
    (test/caching-test.js:68-70). The tests never call it without a request,
    where the test's strategy would throw; the model then falls back to the path.
  */
  function CookieKey(path: string, request: Option<Request>): string {
    match request
    case Some(q) => q.hostname + path + "_" + q.chocolateChip
    case None => path
  }

  const CookieCache: Cache<Request> :=
    OnEvent(NewCache(Options(None, Some(CookieKey))), Connect)

  function RequestFrom(host: string): Option<Response<Request>> {
    Some(Response(Some(Request(host, "mmmmmm")), None))
  }

  const EmptyStore: Store := Store(map[], map[])

  /** The keys the custom strategy builds for the requests of the tests. */
  lemma TestKeys()
    ensures CookieKey("/", RequestOf(RequestFrom("foo.com"))) == "foo.com/_mmmmmm"
    ensures CookieKey("/", RequestOf(RequestFrom("bar.com"))) == "bar.com/_mmmmmm"
    ensures CookieKey("/123-abc", RequestOf(RequestFrom("foo.com"))) == "foo.com/123-abc_mmmmmm"
  {
  }

  /** A legacy index value stays first when the first list is written (test/caching-test.js:130-149). */
  lemma LegacyMigration(body: string)
    ensures var s := Store(map["key_index_/" := "garbage_key"], map[]);
      var r := Put(CookieCache, s, NoFaults, "/", body, RequestFrom("foo.com"));
      && r.outcome == PutResolved
      && Get(r.store, "foo.com/_mmmmmm") == Some(body)
      && Get(r.store, "key_index_/") == Some(Serialize(["garbage_key", "foo.com/_mmmmmm"]))
  {
    var s := Store(map["key_index_/" := "garbage_key"], map[]);
    IndexKeyExamples();
    TestKeys();
    assert ReadIndex(Some("garbage_key")) == ["garbage_key"] by {
      assert SkipWhitespace("garbage_key") == "garbage_key";
      LegacyText("garbage_key");
    }
    LegacyPut(CookieCache, s, "/", body, RequestFrom("foo.com"), "garbage_key");
  }

  /** A non-empty stored value that does not open with `[` after its leading whitespace is read as one legacy key. */
  lemma LegacyText(raw: string)
    requires 0 < |raw| && (SkipWhitespace(raw) == [] || SkipWhitespace(raw)[0] != '[')
    ensures ReadIndex(Some(raw)) == [raw]
  {
  }

  /** A committed put onto a legacy index value keeps that value first. */
  lemma LegacyPut<R>(c: Cache<R>, s: Store, p: string, b: string, res: Option<Response<R>>, raw: string)
    requires c.connected && c.expiration > 0 && !IsUncacheable(StatusOf(res))
    requires Get(s, IndexKey(p)) == Some(raw) && ReadIndex(Some(raw)) == [raw]
    requires c.cacheKey(p, RequestOf(res)) != IndexKey(p)
    ensures var r := Put(c, s, NoFaults, p, b, res);
      var k := c.cacheKey(p, RequestOf(res));
      && r.outcome == PutResolved
      && Get(r.store, k) == Some(b)
      && Get(r.store, IndexKey(p)) == Some(Serialize([raw, k]))
  {
    PutCommits(c, s, p, b, res);
    assert [raw] + [c.cacheKey(p, RequestOf(res))] == [raw, c.cacheKey(p, RequestOf(res))];
  }

  /** A committed put into a fresh index record. */
  lemma FirstPut<R>(c: Cache<R>, s: Store, p: string, b: string, res: Option<Response<R>>)
    requires c.connected && c.expiration > 0 && !IsUncacheable(StatusOf(res))
    requires Get(s, IndexKey(p)) == None && c.cacheKey(p, RequestOf(res)) != IndexKey(p)
    ensures var s1 := Put(c, s, NoFaults, p, b, res).store;
      var k := c.cacheKey(p, RequestOf(res));
      Get(s1, k) == Some(b) && Get(s1, IndexKey(p)) == Some(Serialize([k]))
  {
    PutCommits(c, s, p, b, res);
    assert [] + [c.cacheKey(p, RequestOf(res))] == [c.cacheKey(p, RequestOf(res))];
  }

  /** Two committed puts into a fresh index record whose paths share it and whose keys differ. */
  lemma TwoPuts<R>(c: Cache<R>, s: Store, p1: string, b1: string, res1: Option<Response<R>>,
                   p2: string, b2: string, res2: Option<Response<R>>)
    requires c.connected && c.expiration > 0
    requires !IsUncacheable(StatusOf(res1)) && !IsUncacheable(StatusOf(res2))
    requires IndexKey(p1) == IndexKey(p2) && Get(s, IndexKey(p1)) == None
    requires c.cacheKey(p1, RequestOf(res1)) != c.cacheKey(p2, RequestOf(res2))
    requires c.cacheKey(p1, RequestOf(res1)) != IndexKey(p1) && c.cacheKey(p2, RequestOf(res2)) != IndexKey(p2)
    ensures var s1 := Put(c, s, NoFaults, p1, b1, res1).store;
      var s2 := Put(c, s1, NoFaults, p2, b2, res2).store;
      var k1 := c.cacheKey(p1, RequestOf(res1));
      var k2 := c.cacheKey(p2, RequestOf(res2));
      && Get(s1, k1) == Some(b1)
      && Get(s1, IndexKey(p1)) == Some(Serialize([k1]))
      && Get(s2, k1) == Some(b1)
      && Get(s2, k2) == Some(b2)
      && Get(s2, IndexKey(p1)) == Some(Serialize([k1, k2]))
  {
    var k1 := c.cacheKey(p1, RequestOf(res1));
    var k2 := c.cacheKey(p2, RequestOf(res2));
    FirstPut(c, s, p1, b1, res1);
    var s1 := Put(c, s, NoFaults, p1, b1, res1).store;
    ReadSerialized([k1]);
    PutCommits(c, s1, p2, b2, res2);
    var s2 := Put(c, s1, NoFaults, p2, b2, res2).store;
    assert SameAt(s1, s2, k1);
    assert [k1] + [k2] == [k1, k2];
  }

  /** Two hosts, one path: both bodies are kept and one index record lists both keys (test/caching-test.js:94-127). */
  lemma TwoHostsOneIndex(body: string, body2: string)
    ensures var s1 := Put(CookieCache, EmptyStore, NoFaults, "/", body, RequestFrom("foo.com")).store;
      var s2 := Put(CookieCache, s1, NoFaults, "/", body2, RequestFrom("bar.com")).store;
      && Get(s2, "foo.com/_mmmmmm") == Some(body)
      && Get(s2, "bar.com/_mmmmmm") == Some(body2)
      && Get(s2, "key_index_/") == Some(Serialize(["foo.com/_mmmmmm", "bar.com/_mmmmmm"]))
  {
    IndexKeyExamples();
    TestKeys();
    TwoPuts(CookieCache, EmptyStore, "/", body, RequestFrom("foo.com"), "/", body2, RequestFrom("bar.com"));
  }

  /** A path with a document id is indexed under that id (test/caching-test.js:152-167). */
  lemma DocumentIdIndex(body: string)
    ensures var s1 := Put(CookieCache, EmptyStore, NoFaults, "/123-abc", body, RequestFrom("foo.com")).store;
      && Get(s1, "foo.com/123-abc_mmmmmm") == Some(body)
      && Get(s1, "key_index_123") == Some(Serialize(["foo.com/123-abc_mmmmmm"]))
  {
    IndexKeyExamples();
    TestKeys();
    FirstPut(CookieCache, EmptyStore, "/123-abc", body, RequestFrom("foo.com"));
  }

  /**
    Paths with the same leading document id share one index record that lists
    both keys, for any host name and cookie.
  */
  lemma DocumentIdGrouping(host: string, cookie: string, body: string, body2: string)
    ensures var c := CookieCache;
      var res := Some(Response(Some(Request(host, cookie)), None));
      var s1 := Put(c, EmptyStore, NoFaults, "/123-abc", body, res).store;
      var s2 := Put(c, s1, NoFaults, "/123-xyz", body2, res).store;
      Get(s2, "key_index_123") == Some(Serialize([host + "/123-abc_" + cookie, host + "/123-xyz_" + cookie]))
  {
    IndexKeyExamples();
    GroupingKeys(host, cookie);
    var res := Some(Response(Some(Request(host, cookie)), None));
    TwoPuts(CookieCache, EmptyStore, "/123-abc", body, res, "/123-xyz", body2, res);
  }

  /** The two keys of the grouping example differ from each other and from their index key. */
  lemma GroupingKeys(host: string, cookie: string)
    ensures var k1 := CookieKey("/123-abc", Some(Request(host, cookie)));
      var k2 := CookieKey("/123-xyz", Some(Request(host, cookie)));
      && k1 == host + "/123-abc_" + cookie && k2 == host + "/123-xyz_" + cookie
      && k1 != k2 && k1 != "key_index_123" && k2 != "key_index_123"
  {
    var ik := "key_index_123";
    var k1 := host + "/123-abc_" + cookie;
    var k2 := host + "/123-xyz_" + cookie;
    assert k1[|host| + 5] == 'a' && k2[|host| + 5] == 'x';
    assert k1[|host|] == '/' && k2[|host|] == '/';
    assert forall j :: 0 <= j < |ik| ==> ik[j] != '/';
  }

  /** 4xx and 5xx responses are not cached while 200 is (test/caching-test.js:37-62). */
  lemma StatusFilter<R>(options: Options<R>, body: string, code: int)
    requires options.cacheKey.None? && options.expiration.None?
    requires 100 <= code <= 999
    ensures var c := OnEvent(NewCache(options), Connect);
      var r := Put(c, EmptyStore, NoFaults, "/", body, Some(Response(None, Some(code))));
      && r.outcome == PutResolved
      && (Get(r.store, "/") == None <==> 400 <= code <= 599)
  {
    var c := OnEvent(NewCache(options), Connect);
    ThreeDigitCodes(code);
    var response: Option<Response<R>> := Some(Response(None, Some(code)));
    if !IsUncacheable(Some(code)) {
      DefaultKeyIsNotIndexKey("/", RequestOf(response));
      PutCommits(c, EmptyStore, "/", body, response);
    }
  }
}

=== FILE: status_policy.dfy ===
/**
  The cacheability policy of `put` (index.js:60-68).

  The status code is rendered to its decimal string with `statusCode + ''`; when
  the code is present and non-zero (truthy) and that string begins with '4' or
  '5', the response is not cached. A negative code renders with a leading '-' and
  is therefore cached.
*/
module StatusPolicy {
  import opened Wrappers

  function DigitChar(d: int): char
    requires 0 <= d < 10
  {
    ('0' as int + d) as char
  }

  /** Decimal digits of a natural number, most significant first, without leading zeros. */
  function NaturalString(n: nat): (s: string)
    ensures 0 < |s|
    decreases n
  {
    if n < 10 then [DigitChar(n)] else NaturalString(n / 10) + [DigitChar(n % 10)]
  }

  /** JavaScript's `n + ''` for an integer `n` of magnitude below 10^21. */
  function DecimalString(n: int): (s: string)
    ensures 0 < |s|
  {
    if n < 0 then "-" + NaturalString(-n) else NaturalString(n)
  }

  /**
    The status code of a response is uncacheable when it is truthy (present and
    not 0) and its decimal string starts with '4' or '5' (index.js:60-65).
  */
  predicate IsUncacheable(statusCode: Option<int>) {
    match statusCode
    case None => false
    case Some(code) =>
      code != 0 && (DecimalString(code)[0] == '4' || DecimalString(code)[0] == '5')
  }

  function Pow10(k: nat): (r: nat)
    ensures 0 < r
  {
    if k == 0 then 1 else 10 * Pow10(k - 1)
  }

  /** The first character of the decimal string is the digit `d` when `n` lies in `[d * 10^k, (d+1) * 10^k)`. */
  lemma {:induction false} LeadingDigit(n: nat, d: nat, k: nat)
    requires 1 <= d <= 9
    requires d * Pow10(k) <= n < (d + 1) * Pow10(k)
    ensures NaturalString(n)[0] == DigitChar(d)
  {
    if k == 0 {
      assert n == d;
    } else {
      var p := Pow10(k - 1);
      assert d * p <= n / 10 < (d + 1) * p && n >= 10 by {
        assert Pow10(k) == 10 * p;
        assert 10 * (d * p) <= n < 10 * ((d + 1) * p);
        DivideBounds(n, d * p, (d + 1) * p);
        assert d * p >= 1;
      }
      LeadingDigit(n / 10, d, k - 1);
      assert NaturalString(n) == NaturalString(n / 10) + [DigitChar(n % 10)];
    }
  }

  lemma DivideBounds(n: nat, lo: nat, hi: nat)
    requires 10 * lo <= n < 10 * hi
    ensures lo <= n / 10 < hi
  {
  }

  /** Every positive number has a leading digit `d` at some magnitude `k`. */
  lemma {:induction false} LeadingDigitExists(n: nat) returns (d: nat, k: nat)
    requires 0 < n
    ensures 1 <= d <= 9
    ensures d * Pow10(k) <= n < (d + 1) * Pow10(k)
  {
    if n < 10 {
      d, k := n, 0;
    } else {
      d, k := LeadingDigitExists(n / 10);
      var p := Pow10(k);
      assert Pow10(k + 1) == 10 * p;
      assert d * p <= n / 10 < (d + 1) * p;
      assert 10 * (d * p) <= n by {
        assert 10 * (n / 10) <= n;
      }
      assert n < 10 * ((d + 1) * p) by {
        assert n < 10 * (n / 10) + 10;
        assert n / 10 + 1 <= (d + 1) * p;
      }
      k := k + 1;
    }
  }

  /**
    The policy in arithmetic terms: a status code is uncacheable exactly when it
    is positive and lies in `[4 * 10^k, 6 * 10^k)` for some magnitude `k`; so
    40, 404, 599 and 4000 are not cached while 0, 200, 399, 600 and -404 are.
  */
  lemma UncacheableIff(code: int)
    ensures IsUncacheable(Some(code)) <==>
      (0 < code && exists k: nat :: 4 * Pow10(k) <= code < 6 * Pow10(k))
  {
    if 0 < code {
      var d, k := LeadingDigitExists(code);
      LeadingDigit(code, d, k);
      if IsUncacheable(Some(code)) {
        assert d == 4 || d == 5;
        assert 4 * Pow10(k) <= code < 6 * Pow10(k);
      }
      if k': nat :| 4 * Pow10(k') <= code < 6 * Pow10(k') {
        if code < 5 * Pow10(k') {
          LeadingDigit(code, 4, k');
        } else {
          LeadingDigit(code, 5, k');
        }
      }
    } else if code < 0 {
      assert DecimalString(code)[0] == '-';
    }
  }

  /** For three-digit status codes the policy is exactly the 4xx and 5xx classes. */
  lemma ThreeDigitCodes(code: int)
    requires 100 <= code <= 999
    ensures IsUncacheable(Some(code)) <==> 400 <= code <= 599
  {
    UncacheableIff(code);
    assert Pow10(2) == 100;
    if IsUncacheable(Some(code)) {
      var k: nat :| 4 * Pow10(k) <= code < 6 * Pow10(k);
      if k > 2 {
        Pow10Grows(k);
      }
    } else {
      assert !(4 * Pow10(2) <= code < 6 * Pow10(2));
    }
  }

  lemma {:induction false} Pow10Grows(k: nat)
    requires 3 <= k
    ensures 1000 <= Pow10(k)
  {
    if k == 3 {
      assert Pow10(3) == 1000;
    } else {
      Pow10Grows(k - 1);
    }
  }
}

=== FILE: store.dfy ===
/**
  The Redis database the cache talks to, reduced to what the cache uses: string
  values, the timeout (TTL, in seconds) recorded on a key, the SET and EXPIRE
  commands, and a MULTI/EXEC batch that applies its commands in order as one
  step. Timeouts are recorded, never counted down.
*/
module KeyValueStore {
  import opened Wrappers

  datatype Store = Store(data: map<string, string>, ttl: map<string, int>)

  /** Redis keeps a timeout only on a key that exists. */
  predicate Valid(s: Store) {
    s.ttl.Keys <= s.data.Keys
  }

  /** GET: the stored value, None for a missing key. */
  function Get(s: Store, key: string): Option<string> {
    if key in s.data then Some(s.data[key]) else None
  }

  /** The timeout recorded on a key, None when it has none. */
  function Ttl(s: Store, key: string): Option<int> {
    if key in s.ttl then Some(s.ttl[key]) else None
  }

  /** Key `k` holds the same value and timeout in both stores. */
  predicate SameAt(s: Store, r: Store, k: string) {
    Get(s, k) == Get(r, k) && Ttl(s, k) == Ttl(r, k)
  }

  datatype Command = Set(key: string, value: string) | Expire(key: string, seconds: int)

  /**
    One command as Redis runs it: SET stores the value and discards any timeout
    the key had; EXPIRE does nothing to a missing key, deletes the key when the
    timeout is not positive, and otherwise records the timeout.
  */
  function Apply(s: Store, c: Command): (r: Store)
    ensures Valid(s) ==> Valid(r)
    ensures forall k :: k != c.key ==> SameAt(s, r, k)
    ensures c.Set? ==> Get(r, c.key) == Some(c.value) && Ttl(r, c.key) == None
    ensures c.Expire? && c.key in s.data && c.seconds > 0 ==>
      Get(r, c.key) == Get(s, c.key) && Ttl(r, c.key) == Some(c.seconds)
    ensures c.Expire? && c.seconds <= 0 ==> Get(r, c.key) == None
    ensures c.Expire? && c.key !in s.data ==> r == s
  {
    match c
    case Set(k, v) => Store(s.data[k := v], s.ttl - {k})
    case Expire(k, t) =>
      if k !in s.data then s
      else if t <= 0 then Store(s.data - {k}, s.ttl - {k})
      else Store(s.data, s.ttl[k := t])
  }

  /** No command of the batch names key `k`. */
  predicate Untouched(cmds: seq<Command>, k: string) {
    forall i :: 0 <= i < |cmds| ==> cmds[i].key != k
  }

  /** MULTI ... EXEC: the queued commands run in order as one atomic step. */
  function Exec(s: Store, cmds: seq<Command>): (r: Store)
    ensures Valid(s) ==> Valid(r)
    ensures forall k :: Untouched(cmds, k) ==> SameAt(s, r, k)
    decreases |cmds|
  {
    if |cmds| == 0 then s
    else
      assert forall k :: Untouched(cmds, k) ==> cmds[0].key != k && Untouched(cmds[1..], k) by {
        forall k | Untouched(cmds, k) ensures Untouched(cmds[1..], k) {
          assert forall i :: 0 <= i < |cmds| - 1 ==> cmds[1..][i] == cmds[i + 1];
        }
      }
      Exec(Apply(s, cmds[0]), cmds[1..])
  }
}

=== FILE: wrappers.dfy ===
/** The optional value used throughout the model for JavaScript's `undefined`/`null`. */
module Wrappers {

  datatype Option<+T> = None | Some(value: T) {

    /** The value when present, else the fallback. */
    function GetOr(default: T): T {
      match this
      case Some(v) => v
      case None => default
    }
  }
}
